=== FILE: README.md ===
# remote-dump1090 in Dafny

remote-dump1090 relays a TCP byte stream from a dump1090 instance (the source,
by default port 30002) to another instance (the destination, by default port
30001), reconnecting either side whenever a read or a write on it fails. This
project models the two pieces of `remote_dump1090.c` that make decisions:

- **The command line of `main`** (`CommandLine`, with port conversion in
  `Ports`). `Parse` maps the arguments after the program name to an `Outcome`:
  `Help` and `Version` (exit 0), `UsageError` (exit 2, with the reason and the
  log sink the error line goes to), `Run` with the source and destination
  endpoints and the syslog choice, and `MissingPortValue` for a detached `-s`
  or `-d` as the last argument. In that last case the program takes the value
  from `argv[argc]`, which is a null pointer, and hands it to `strtoul`; C does
  not define what happens, so the model makes it an outcome of its own rather
  than guessing an exit status. `ScanArgv` is the same scan written as the
  program's index loop and is proved equal to `Parse`.
- **The relay loop `main_loop`** (`RelayLoop`). The sockets are abstract
  handles and the operating system is a trace of `Turn`s: per iteration, the
  read result (a failure, or a chunk of 1 to 1024 bytes), the write result (a
  failure, or a count of accepted bytes) and the handle a reconnect returned.
  `Step` is one iteration, `Run` a finite prefix of the endless loop, `Launch`
  adds the initial connects (destination first, then source), and `Pump` is the
  loop written imperatively and proved equal to `Launch`. The state records both
  handles and every byte the destination accepted; each step also returns the
  socket calls it made.

C strings are Dafny strings read through `CharAt`, which returns NUL past the
end, as a C string returns its terminator; the scanner only inspects positions
up to the first NUL, so this matches C for every argument (characters stand for
bytes; see "## Left out").

## Model

| member | source | states |
|---|---|---|
| Ports.LeadingDigits | remote_dump1090.c:222 | the digits a port conversion reads: the longest all-digit prefix of the value, stopping at the first non-digit |
| Ports.ParsePort | remote_dump1090.c:220-231 | a port value that does not start with a digit (including an empty one) denotes port 0 |
| Ports.DecimalValueOfDecimal | remote_dump1090.c:222 | the digit-string value is the inverse of canonical decimal rendering |
| Ports.ParsePortOfDecimal | remote_dump1090.c:220-231 | a decimal port, alone or followed by a non-digit tail, converts back to that port |
| CommandLine.ScanArgs | remote_dump1090.c:208-243 | while scanning, a host once set is never replaced, the destination host is only set after the source host, `-l` is never undone, a usage error met after `-l` goes to syslog, and every host is a non-dash argument |
| CommandLine.Finish | remote_dump1090.c:245-256 | after a complete scan, the relay starts exactly when both hosts are set; a missing source host, or a source host without a destination host, is a usage error naming the missing one; an outcome reached during the scan is passed through unchanged |
| CommandLine.Parse | remote_dump1090.c:198-256 | a started relay's hosts are arguments that do not start with `-`; no arguments at all is a missing-source-host usage error |
| CommandLine.ExitCode | remote_dump1090.c:232-259 | the process exits 0 exactly for help and version and 2 exactly for a usage error; a started relay does not exit from argument handling, and a missing port value has no defined exit status |
| CommandLine.ScanArgv | remote_dump1090.c:198-256 | the program's index loop (with its extra increment for a detached value and its early exits) computes the same outcome as the left-to-right scan |
| CommandLine.ScanAppend | remote_dump1090.c:208-243 | the scan is a single left-to-right pass: scanning a concatenation is scanning the first part then the second from where it stopped, unless the first part ends with a detached port flag |
| CommandLine.DefaultPorts | remote_dump1090.c:203-204 | with no `-s` (`-d`) argument, a started relay uses source port 30002 (destination port 30001) |
| CommandLine.StoppingFlag | remote_dump1090.c:209-236 | only the second character of a dash argument matters (for `-l` see `SyslogFlag`); `-h`/`-v` give help/version with exit 0 and any letter other than `h v l s d`, or none, gives an invalid-flag usage error with exit 2, whatever follows |
| CommandLine.SyslogFlag | remote_dump1090.c:217-219 | a dash argument whose second character is `l`, at any position the scan reaches and whatever follows the `l`, lets the scan go on with hosts and ports unchanged and only the syslog choice switched on; so a started relay logs to syslog, and any later usage error is sent to syslog |
| CommandLine.NoSyslogFlag | remote_dump1090.c:217-219 | with no `-l` argument, a started relay does not log to syslog and a usage error is not sent to syslog |
| CommandLine.HaltIgnoresRest | remote_dump1090.c:211-236 | once the scan has stopped at a flag, later arguments have no effect |
| CommandLine.LaterPortOverrides | remote_dump1090.c:220-231 | an attached `-s`/`-d` immediately followed by another one of the same letter (attached or detached) is forgotten: the pair parses like the second alone |
| CommandLine.LastPortDecides | remote_dump1090.c:220-231 | with no later argument read as the same flag, however far away, a started relay's source (destination) port is the value attached to the last `-s` (`-d`), e.g. `-s1 a -s2 b` uses port 2 |
| CommandLine.DetachedActsAsAttached | remote_dump1090.c:220-231 | a detached port value is consumed by its flag and never becomes a host: `-s V` acts like `-s` with the converted value attached |
| CommandLine.DetachedAtEnd | remote_dump1090.c:220-231 | a detached `-s`/`-d` as the last argument has no value; the outcome is the undefined conversion, not an exit status |
| CommandLine.NextPositionalIsSource | remote_dump1090.c:239-240 | the first positional argument the scan reaches, whatever flags surround it, is the source host of a started relay |
| CommandLine.NextPositionalIsDestination | remote_dump1090.c:241-242 | the positional argument the scan reaches after the source host is the destination host of a started relay |
| CommandLine.ExtraPositionalIgnored | remote_dump1090.c:239-242 | once both hosts are known, a further positional argument anywhere later changes nothing |
| CommandLine.PositionalsOnly | remote_dump1090.c:239-256 | without flags the first two arguments are source and destination host with default ports; the relay starts exactly when there are two, and otherwise exit 2 names the missing host |
| CommandLine.RenderRoundTrip | remote_dump1090.c:208-256 | every configuration with non-dash hosts is produced by its canonical argument list `-s P -d Q [-l] SRC DST` |
| CommandLine.RunIsCanonical | remote_dump1090.c:245-256 | the configuration of any started relay is reproduced by its canonical argument list |
| RelayLoop.Accepted | remote_dump1090.c:143-147 | a write that returns k delivers exactly the first k bytes of the chunk it was given; a failed write delivers nothing |
| RelayLoop.Step | remote_dump1090.c:136-147 | every iteration reads up to 1024 bytes from the current source; a failed read closes and reconnects only the source and writes nothing; a read chunk is written whole to the current destination; a failed write closes and reconnects only the destination and drops the chunk; a write of k bytes appends the chunk's first k bytes |
| RelayLoop.Launch | remote_dump1090.c:132-133 | the destination is connected before the source, before any read |
| RelayLoop.Pump | remote_dump1090.c:129-153 | the loop as written produces the same handles, deliveries and calls as the step-by-step run |
| RelayLoop.RunAppend | remote_dump1090.c:136-148 | running two trace segments in turn is running their concatenation |
| RelayLoop.Run | remote_dump1090.c:136-148 | over any finite prefix of the endless loop, bytes delivered to the destination are never taken back |
| RelayLoop.DeliveredInOrder | remote_dump1090.c:136-148 | what the destination has received at an earlier point is a prefix of what it has received at any later point |
| RelayLoop.WrittenDataOfStep | remote_dump1090.c:137-143 | one iteration calls `write` exactly once, with the chunk just read, when the read succeeded, and not at all when it failed |
| RelayLoop.WritesAreTheChunksRead | remote_dump1090.c:137-143 | the data handed to `write`, in order, is exactly the sequence of chunks read successfully |
| RelayLoop.DeliveredArePrefixesOfChunks | remote_dump1090.c:137-147 | the delivered stream is a concatenation of a prefix of each chunk read, in read order |
| RelayLoop.HealthyRelayIsExact | remote_dump1090.c:137-147 | when all reads and writes succeed in full, the destination receives exactly the concatenation of the chunks read and no handle changes |
| RelayLoop.SourceOutage | remote_dump1090.c:137-142 | while reads fail, the destination handle and delivered bytes are untouched, nothing is written, and the source is the last reconnected handle |
| RelayLoop.DestinationOutageDrops | remote_dump1090.c:143-147 | while writes fail the source is not reconnected and the chunks are dropped, so the first full write afterwards delivers only its own chunk |

## Left out

- `socket_connect` (remote_dump1090.c:65-126): socket creation with retry, the read/write timeouts, host name lookup and connect with retry are operating-system calls, `sleep` and `exit`. In the relay model a reconnect is the handle a `Turn` supplies. The code creates the socket and sets both timeouts before it resolves the host name, and it exits with status 1 when the lookup fails or finds no IPv4 address; a lookup failure therefore ends the process rather than being retried.
- `xlog`, `print_usage`, `print_help` and the version line: their text and output stream are I/O. The model keeps only which outcome a branch produces and, for usage errors, whether the error line goes to the system log.
- `signal(SIGPIPE, SIG_IGN)` and the timeout semantics of `read`/`write`: runtime configuration and timing. A timed-out read or write is one of the failure results a `Turn` can carry.
- Ports.ParsePort: reads only leading decimal digits. `strtoul` also skips leading white space, accepts a sign and saturates on overflow, and the program truncates the result to `int`; those belong to the C library.
- Command-line arguments are sequences of characters, not bytes. Every character the scan compares is ASCII, so each decision matches; but for a flag such as `-é` the program reports the first byte of its encoding (0xC3 in UTF-8) as the invalid letter, while the model's `InvalidFlag` carries the whole character.
- RelayLoop.Run: covers finite prefixes of the `while (1)` loop; the loop itself never ends, and the unreachable `close` calls after it are not modelled.
- RelayLoop.Step: the bytes are abstract chunks; blocking, partial reads of a larger burst and the contents of the buffer beyond the bytes read are not modelled.

=== FILE: commandline.dfy ===
/**
 The argument scan of remote-dump1090's `main`.

 The program looks at `argv[1..]` left to right. An argument whose first
 character is `-` is a flag and only its second character is inspected:
 `h` and `v` end the scan with help or version, `l` selects the system log,
 `s` and `d` set the source or destination port from the rest of the argument
 or, when nothing follows the letter, from the next argument, and any other
 letter (including none, a bare `-`) ends the scan with a usage error. Every
 other argument is a positional: the first becomes the source host, the
 second the destination host, later ones are ignored. When the scan runs off
 the end, both hosts are required.

 C strings are read through `CharAt`, which yields NUL past the end of the
 Dafny string, just as a C string yields its terminator.
 */
module CommandLine {
  import opened Ports

  const DefaultSourcePort: nat := 30002
  const DefaultDestinationPort: nat := 30001

  datatype Option<T> = None | Some(value: T)

  datatype Endpoint = Endpoint(host: string, port: nat)

  /** What the relay is started with. */
  datatype Config = Config(source: Endpoint, destination: Endpoint, useSyslog: bool)

  datatype UsageReason =
    | InvalidFlag(flag: char)
    | MissingSourceHost
    | MissingDestinationHost

  /** How `main` ends its argument handling. */
  datatype Outcome =
    | Help
    | Version
      /** exit status 2; `logToSyslog` is the sink of the error line */
    | UsageError(reason: UsageReason, logToSyslog: bool)
      /** `main_loop` is entered and never returns */
    | Run(config: Config)
      /** a detached `-s`/`-d` is the last argument: the program converts `argv[argc]`,
          a null pointer, which C leaves undefined */
    | MissingPortValue(flag: char)

  /** The exit status of the process, when argument handling ends it. */
  function ExitCode(o: Outcome): (code: Option<int>)
    ensures code == Some(0) <==> o.Help? || o.Version?
    ensures code == Some(2) <==> o.UsageError?
    ensures code.None? <==> o.Run? || o.MissingPortValue?
  {
    match o
    case Help => Some(0)
    case Version => Some(0)
    case UsageError(_, _) => Some(2)
    case Run(_) => None
    case MissingPortValue(_) => None
  }

  /** Character `k` of a C string: the terminator past the end. */
  function CharAt(s: string, k: nat): char
  {
    if k < |s| then s[k] else NUL
  }

  predicate IsDash(a: string) {
    CharAt(a, 0) == '-'
  }

  /** `a` is read as flag `-c` when the scan reaches it. */
  predicate IsFlag(a: string, c: char) {
    IsDash(a) && CharAt(a, 1) == c
  }

  predicate IsPortFlag(c: char) {
    c == 's' || c == 'd'
  }

  /** A host the scan can produce and `Render` can reproduce. */
  predicate ValidHost(h: string) {
    !IsDash(h)
  }

  /** The local variables of `main` while it scans. */
  datatype Scan = Scan(src: Option<string>, dst: Option<string>, srcPort: nat, dstPort: nat, syslog: bool)

  const Initial: Scan := Scan(None, None, DefaultSourcePort, DefaultDestinationPort, false)

  datatype Progress = Going(scan: Scan) | Halted(outcome: Outcome)

  function AddHost(sc: Scan, a: string): Scan
  {
    if sc.src.None? then sc.(src := Some(a))
    else if sc.dst.None? then sc.(dst := Some(a))
    else sc
  }

  function PortOf(sc: Scan, c: char): nat
    requires IsPortFlag(c)
  {
    if c == 's' then sc.srcPort else sc.dstPort
  }

  function SetPort(sc: Scan, c: char, p: nat): (r: Scan)
    requires IsPortFlag(c)
    ensures PortOf(r, c) == p
  {
    if c == 's' then sc.(srcPort := p) else sc.(dstPort := p)
  }

  /** Hosts, once set, stay set; the destination is only set after the source. */
  predicate Keeps(before: Scan, after: Scan) {
    && (before.src.Some? ==> after.src == before.src)
    && (before.dst.Some? ==> after.dst == before.dst)
    && (after.dst.Some? ==> after.src.Some?)
    && (before.syslog ==> after.syslog)
  }

  /** Every host of `after` was already in `before` or is a positional argument of `rest`. */
  predicate HostsFrom(before: Scan, after: Scan, rest: seq<string>) {
    && (after.src.Some? ==> after.src == before.src || (after.src.value in rest && ValidHost(after.src.value)))
    && (after.dst.Some? ==> after.dst == before.dst || (after.dst.value in rest && ValidHost(after.dst.value)))
  }

  /** Scans the arguments `rest` from the state `sc`. */
  function ScanArgs(rest: seq<string>, sc: Scan): (p: Progress)
    requires sc.dst.Some? ==> sc.src.Some?
    ensures p.Going? ==> Keeps(sc, p.scan) && HostsFrom(sc, p.scan, rest)
    ensures p.Halted? ==> !p.outcome.Run?
    ensures p.Halted? && p.outcome.UsageError? && sc.syslog ==> p.outcome.logToSyslog
    decreases |rest|
  {
    if |rest| == 0 then Going(sc)
    else
      var a := rest[0];
      if !IsDash(a) then ScanArgs(rest[1..], AddHost(sc, a))
      else
        var c := CharAt(a, 1);
        if c == 'h' then Halted(Help)
        else if c == 'v' then Halted(Version)
        else if c == 'l' then ScanArgs(rest[1..], sc.(syslog := true))
        else if IsPortFlag(c) then
          if CharAt(a, 2) != NUL then ScanArgs(rest[1..], SetPort(sc, c, ParsePort(a[2..])))
          else if |rest| >= 2 then ScanArgs(rest[2..], SetPort(sc, c, ParsePort(rest[1])))
          else Halted(MissingPortValue(c))
        else Halted(UsageError(InvalidFlag(c), sc.syslog))
  }

  /** The checks after the scan: both hosts are required. */
  function Finish(p: Progress): (o: Outcome)
    requires p.Halted? ==> !p.outcome.Run?
    ensures o.Run? <==> p.Going? && p.scan.src.Some? && p.scan.dst.Some?
    ensures p.Going? && p.scan.src.None? ==> o == UsageError(MissingSourceHost, p.scan.syslog)
    ensures p.Going? && p.scan.src.Some? && p.scan.dst.None? ==> o == UsageError(MissingDestinationHost, p.scan.syslog)
    ensures p.Halted? ==> o == p.outcome
  {
    match p
    case Halted(o) => o
    case Going(sc) =>
      if sc.src.None? then UsageError(MissingSourceHost, sc.syslog)
      else if sc.dst.None? then UsageError(MissingDestinationHost, sc.syslog)
      else Run(Config(Endpoint(sc.src.value, sc.srcPort), Endpoint(sc.dst.value, sc.dstPort), sc.syslog))
  }

  /** The outcome of `main` for the arguments after the program name. */
  function Parse(args: seq<string>): (o: Outcome)
    ensures o.Run? ==> o.config.source.host in args && ValidHost(o.config.source.host)
    ensures o.Run? ==> o.config.destination.host in args && ValidHost(o.config.destination.host)
    ensures |args| == 0 ==> o == UsageError(MissingSourceHost, false)
  {
    Finish(ScanArgs(args, Initial))
  }

  /** `argv` without the program name; an empty `argv` has no arguments. */
  function ProgramArgs(argv: seq<string>): seq<string>
  {
    if |argv| == 0 then [] else argv[1..]
  }

  /** The scan of `main` as the program writes it: an index loop over `argv` with
      mutable locals, an extra increment for a detached port value and an early
      exit for the flags that end the scan. */
  method ScanArgv(argv: seq<string>) returns (o: Outcome)
    ensures o == Parse(ProgramArgs(argv))
  {
    var src: Option<string> := None;
    var dst: Option<string> := None;
    var srcPort: nat := DefaultSourcePort;
    var dstPort: nat := DefaultDestinationPort;
    var syslog := false;
    var i := 1;
    while i < |argv|
      invariant 1 <= i <= |argv| || |argv| == 0
      invariant dst.Some? ==> src.Some?
      invariant ScanArgs(ProgramArgs(argv), Initial)
             == ScanArgs(if i <= |argv| then argv[i..] else [], Scan(src, dst, srcPort, dstPort, syslog))
      decreases |argv| - i
    {
      var a := argv[i];
      assert argv[i..][1..] == argv[i + 1..];
      if CharAt(a, 0) == '-' {
        var c := CharAt(a, 1);
        if c == 'h' {
          return Help;
        } else if c == 'v' {
          return Version;
        } else if c == 'l' {
          syslog := true;
        } else if c == 's' || c == 'd' {
          var value: string;
          if CharAt(a, 2) != NUL {
            value := a[2..];
          } else if i + 1 < |argv| {
            assert argv[i..][1] == argv[i + 1];
            assert argv[i..][2..] == argv[i + 2..];
            i := i + 1;
            value := argv[i];
          } else {
            return MissingPortValue(c);
          }
          if c == 's' {
            srcPort := ParsePort(value);
          } else {
            dstPort := ParsePort(value);
          }
        } else {
          return UsageError(InvalidFlag(c), syslog);
        }
      } else if src.None? {
        src := Some(a);
      } else if dst.None? {
        dst := Some(a);
      }
      i := i + 1;
    }
    assert ScanArgs(ProgramArgs(argv), Initial) == Going(Scan(src, dst, srcPort, dstPort, syslog));
    if src.None? {
      o := UsageError(MissingSourceHost, syslog);
    } else if dst.None? {
      o := UsageError(MissingDestinationHost, syslog);
    } else {
      o := Run(Config(Endpoint(src.value, srcPort), Endpoint(dst.value, dstPort), syslog));
    }
  }

  /** What scanning `post` adds once a scan has reached state `p`. */
  function Continue(p: Progress, post: seq<string>): Progress
    requires p.Going? ==> (p.scan.dst.Some? ==> p.scan.src.Some?)
  {
    if p.Going? then ScanArgs(post, p.scan) else p
  }

  /** The scan is a left-to-right pass: scanning `pre + post` is scanning `pre`,
      then `post` from where `pre` left off, unless `pre` ends with a detached
      port flag (which would take its value from `post`). */
  lemma {:induction false} ScanAppend(pre: seq<string>, post: seq<string>, sc: Scan)
    requires sc.dst.Some? ==> sc.src.Some?
    requires !(ScanArgs(pre, sc).Halted? && ScanArgs(pre, sc).outcome.MissingPortValue?)
    ensures ScanArgs(pre + post, sc) == Continue(ScanArgs(pre, sc), post)
    decreases |pre|
  {
    if |pre| == 0 {
      assert pre + post == post;
    } else {
      var a := pre[0];
      var all := pre + post;
      assert all[0] == a;
      assert all[1..] == pre[1..] + post;
      if !IsDash(a) {
        ScanAppend(pre[1..], post, AddHost(sc, a));
      } else {
        var c := CharAt(a, 1);
        if c == 'l' {
          ScanAppend(pre[1..], post, sc.(syslog := true));
        } else if IsPortFlag(c) {
          if CharAt(a, 2) != NUL {
            ScanAppend(pre[1..], post, SetPort(sc, c, ParsePort(a[2..])));
          } else {
            assert |pre| >= 2;
            assert all[1] == pre[1];
            assert all[2..] == pre[2..] + post;
            ScanAppend(pre[2..], post, SetPort(sc, c, ParsePort(pre[1])));
          }
        }
      }
    }
  }

  /** `pre` scans to the end without halting. */
  predicate ScansThrough(pre: seq<string>) {
    ScanArgs(pre, Initial).Going?
  }

  /** The scan state after a prefix that scans through. */
  function StateAfter(pre: seq<string>): (sc: Scan)
    requires ScansThrough(pre)
    ensures sc.dst.Some? ==> sc.src.Some?
  {
    ScanArgs(pre, Initial).scan
  }

  /** Parsing `pre + [a, ...] + post` once `pre` has scanned through. */
  lemma ParseAfter(pre: seq<string>, mid: seq<string>, post: seq<string>)
    requires ScansThrough(pre)
    ensures Parse(pre + mid + post) == Finish(ScanArgs(mid + post, StateAfter(pre)))
  {
    assert pre + mid + post == pre + (mid + post);
    ScanAppend(pre, mid + post, Initial);
  }

  /** Without an `-s` (or `-d`) flag, a started relay uses the default source
      (or destination) port. */
  lemma DefaultPorts(args: seq<string>)
    requires Parse(args).Run?
    ensures (forall a :: a in args ==> !IsFlag(a, 's')) ==> Parse(args).config.source.port == DefaultSourcePort
    ensures (forall a :: a in args ==> !IsFlag(a, 'd')) ==> Parse(args).config.destination.port == DefaultDestinationPort
  {
    if forall a :: a in args ==> !IsFlag(a, 's') {
      PortUntouched(args, Initial, 's');
    }
    if forall a :: a in args ==> !IsFlag(a, 'd') {
      PortUntouched(args, Initial, 'd');
    }
  }

  lemma {:induction false} PortUntouched(rest: seq<string>, sc: Scan, c: char)
    requires sc.dst.Some? ==> sc.src.Some?
    requires IsPortFlag(c)
    requires forall a :: a in rest ==> !IsFlag(a, c)
    requires ScanArgs(rest, sc).Going?
    ensures PortOf(ScanArgs(rest, sc).scan, c) == PortOf(sc, c)
    decreases |rest|
  {
    if |rest| > 0 {
      var a := rest[0];
      assert a in rest;
      if !IsDash(a) {
        PortUntouched(rest[1..], AddHost(sc, a), c);
      } else {
        var f := CharAt(a, 1);
        if f == 'l' {
          PortUntouched(rest[1..], sc.(syslog := true), c);
        } else if IsPortFlag(f) {
          assert f != c;
          if CharAt(a, 2) != NUL {
            PortUntouched(rest[1..], SetPort(sc, f, ParsePort(a[2..])), c);
          } else {
            assert forall x :: x in rest[2..] ==> x in rest;
            PortUntouched(rest[2..], SetPort(sc, f, ParsePort(rest[1])), c);
          }
        }
      }
    }
  }

  /** `-l` anywhere the scan reaches, whatever follows the `l`, switches logging
      to syslog for good and lets the scan go on with hosts and ports as they
      were: a started relay logs to syslog, and so does any usage error
      reported later. */
  lemma SyslogFlag(pre: seq<string>, f: string, post: seq<string>)
    requires ScansThrough(pre)
    requires IsFlag(f, 'l')
    ensures Parse(pre + [f] + post).Run? ==> Parse(pre + [f] + post).config.useSyslog
    ensures Parse(pre + [f] + post).UsageError? ==> Parse(pre + [f] + post).logToSyslog
    ensures ScansThrough(pre + [f])
    ensures StateAfter(pre + [f]) == StateAfter(pre).(syslog := true)
  {
    var sc := StateAfter(pre);
    ParseAfter(pre, [f], post);
    ScanAppend(pre, [f], Initial);
    assert ([f] + post)[0] == f && ([f] + post)[1..] == post;
    assert [f][0] == f && [f][1..] == [];
    assert ScanArgs([f], sc) == ScanArgs([], sc.(syslog := true));
  }

  /** Without an `-l` flag nothing is logged to syslog: neither a started relay
      nor a usage error. */
  lemma NoSyslogFlag(args: seq<string>)
    requires forall a :: a in args ==> !IsFlag(a, 'l')
    ensures Parse(args).Run? ==> !Parse(args).config.useSyslog
    ensures Parse(args).UsageError? ==> !Parse(args).logToSyslog
  {
    SyslogUntouched(args, Initial);
  }

  lemma {:induction false} SyslogUntouched(rest: seq<string>, sc: Scan)
    requires sc.dst.Some? ==> sc.src.Some?
    requires forall a :: a in rest ==> !IsFlag(a, 'l')
    ensures ScanArgs(rest, sc).Going? ==> ScanArgs(rest, sc).scan.syslog == sc.syslog
    ensures ScanArgs(rest, sc).Halted? && ScanArgs(rest, sc).outcome.UsageError? ==>
      ScanArgs(rest, sc).outcome.logToSyslog == sc.syslog
    decreases |rest|
  {
    if |rest| > 0 {
      var a := rest[0];
      assert a in rest;
      if !IsDash(a) {
        SyslogUntouched(rest[1..], AddHost(sc, a));
      } else {
        var f := CharAt(a, 1);
        assert f != 'l';
        if IsPortFlag(f) {
          if CharAt(a, 2) != NUL {
            SyslogUntouched(rest[1..], SetPort(sc, f, ParsePort(a[2..])));
          } else if |rest| >= 2 {
            assert forall x :: x in rest[2..] ==> x in rest;
            SyslogUntouched(rest[2..], SetPort(sc, f, ParsePort(rest[1])));
          }
        }
      }
    }
  }

  /** A flag other than `-l`, `-s` and `-d` ends the scan where it stands: `-h`
      and `-v` exit 0 whatever else is given, any other letter exits 2, and no
      later argument matters. */
  lemma StoppingFlag(pre: seq<string>, f: string, post: seq<string>)
    requires ScansThrough(pre)
    requires IsDash(f) && CharAt(f, 1) != 'l' && !IsPortFlag(CharAt(f, 1))
    ensures CharAt(f, 1) == 'h' ==> Parse(pre + [f] + post) == Help
    ensures CharAt(f, 1) == 'v' ==> Parse(pre + [f] + post) == Version
    ensures CharAt(f, 1) != 'h' && CharAt(f, 1) != 'v' ==>
      Parse(pre + [f] + post) == UsageError(InvalidFlag(CharAt(f, 1)), StateAfter(pre).syslog)
    ensures ExitCode(Parse(pre + [f] + post)) == Some(if CharAt(f, 1) in {'h', 'v'} then 0 else 2)
  {
    ParseAfter(pre, [f], post);
    assert ([f] + post)[0] == f;
  }

  /** Once the scan has halted, later arguments have no effect. */
  lemma HaltIgnoresRest(pre: seq<string>, post: seq<string>)
    requires ScanArgs(pre, Initial).Halted?
    requires !ScanArgs(pre, Initial).outcome.MissingPortValue?
    ensures Parse(pre + post) == Parse(pre)
  {
    ScanAppend(pre, post, Initial);
  }

  /** A later `-s` (`-d`) overrides an earlier attached one. */
  lemma LaterPortOverrides(pre: seq<string>, c: char, v1: string, v2: string, post: seq<string>)
    requires ScansThrough(pre)
    requires IsPortFlag(c)
    requires |v1| > 0 && v1[0] != NUL
    ensures Parse(pre + [['-', c] + v1, ['-', c] + v2] + post) == Parse(pre + [['-', c] + v2] + post)
  {
    var first := ['-', c] + v1;
    var second := ['-', c] + v2;
    var sc := StateAfter(pre);
    ParseAfter(pre, [first, second], post);
    ParseAfter(pre, [second], post);
    assert CharAt(first, 1) == c && CharAt(first, 2) == v1[0];
    assert ([first, second] + post)[0] == first;
    assert ([first, second] + post)[1..] == [second] + post;
    assert ScanArgs([first, second] + post, sc)
        == ScanArgs([second] + post, SetPort(sc, c, ParsePort(first[2..])));
    assert SetPort(SetPort(sc, c, ParsePort(first[2..])), c, ParsePort(v2)) == SetPort(sc, c, ParsePort(v2));
    var mid := SetPort(sc, c, ParsePort(first[2..]));
    assert ([second] + post)[0] == second && ([second] + post)[1..] == post;
    assert second[2..] == v2;
    if CharAt(second, 2) != NUL {
      assert ScanArgs([second] + post, mid) == ScanArgs(post, SetPort(mid, c, ParsePort(v2)));
      assert ScanArgs([second] + post, sc) == ScanArgs(post, SetPort(sc, c, ParsePort(v2)));
    } else if |post| >= 1 {
      assert ([second] + post)[1] == post[0] && ([second] + post)[2..] == post[1..];
      assert SetPort(mid, c, ParsePort(post[0])) == SetPort(sc, c, ParsePort(post[0]));
    }
  }

  /** The last `-s` (`-d`) decides the port: with no later argument read as that
      flag, however far away, a started relay uses the value attached to it. */
  lemma LastPortDecides(pre: seq<string>, c: char, v: string, post: seq<string>)
    requires ScansThrough(pre)
    requires IsPortFlag(c)
    requires |v| > 0 && v[0] != NUL
    requires forall a :: a in post ==> !IsFlag(a, c)
    requires Parse(pre + [['-', c] + v] + post).Run?
    ensures c == 's' ==> Parse(pre + [['-', c] + v] + post).config.source.port == ParsePort(v)
    ensures c == 'd' ==> Parse(pre + [['-', c] + v] + post).config.destination.port == ParsePort(v)
  {
    var f := ['-', c] + v;
    var sc := SetPort(StateAfter(pre), c, ParsePort(v));
    ParseAfter(pre, [f], post);
    assert ([f] + post)[0] == f && ([f] + post)[1..] == post;
    assert CharAt(f, 1) == c && CharAt(f, 2) == v[0] && f[2..] == v;
    assert ScanArgs([f] + post, StateAfter(pre)) == ScanArgs(post, sc);
    PortUntouched(post, sc, c);
  }

  /** The first positional argument the scan reaches becomes the source host,
      whatever flags come before or after it. */
  lemma NextPositionalIsSource(pre: seq<string>, x: string, post: seq<string>)
    requires ScansThrough(pre)
    requires StateAfter(pre).src.None?
    requires !IsDash(x)
    ensures Parse(pre + [x] + post).Run? ==> Parse(pre + [x] + post).config.source.host == x
  {
    ParseAfter(pre, [x], post);
    assert ([x] + post)[0] == x && ([x] + post)[1..] == post;
  }

  /** The second positional argument the scan reaches becomes the destination host. */
  lemma NextPositionalIsDestination(pre: seq<string>, x: string, post: seq<string>)
    requires ScansThrough(pre)
    requires StateAfter(pre).src.Some? && StateAfter(pre).dst.None?
    requires !IsDash(x)
    ensures Parse(pre + [x] + post).Run? ==> Parse(pre + [x] + post).config.destination.host == x
  {
    ParseAfter(pre, [x], post);
    assert ([x] + post)[0] == x && ([x] + post)[1..] == post;
  }

  /** A detached port value is consumed by its flag, never taken as a host: it
      acts exactly like the same port attached to the flag. */
  lemma DetachedActsAsAttached(pre: seq<string>, c: char, v: string, post: seq<string>)
    requires ScansThrough(pre)
    requires IsPortFlag(c)
    ensures Parse(pre + [['-', c], v] + post) == Parse(pre + [['-', c] + Decimal(ParsePort(v))] + post)
  {
    var sc := StateAfter(pre);
    var detached := ['-', c];
    var attached := ['-', c] + Decimal(ParsePort(v));
    ParseAfter(pre, [detached, v], post);
    ParseAfter(pre, [attached], post);
    assert ([detached, v] + post)[0] == detached && ([detached, v] + post)[1] == v;
    assert ([detached, v] + post)[2..] == post;
    assert ([attached] + post)[0] == attached && ([attached] + post)[1..] == post;
    assert CharAt(attached, 2) == Decimal(ParsePort(v))[0];
    assert attached[2..] == Decimal(ParsePort(v));
    ParsePortOfDecimal(ParsePort(v), []);
  }

  /** A detached `-s` or `-d` as the last argument has no value to convert. */
  lemma DetachedAtEnd(pre: seq<string>, c: char)
    requires ScansThrough(pre)
    requires IsPortFlag(c)
    ensures Parse(pre + [['-', c]]) == MissingPortValue(c)
    ensures ExitCode(Parse(pre + [['-', c]])) == None
  {
    ParseAfter(pre, [['-', c]], []);
    assert pre + [['-', c]] + [] == pre + [['-', c]];
  }

  /** Once both hosts are known, a further positional argument changes nothing. */
  lemma ExtraPositionalIgnored(pre: seq<string>, x: string, post: seq<string>)
    requires ScansThrough(pre)
    requires StateAfter(pre).src.Some? && StateAfter(pre).dst.Some?
    requires !IsDash(x)
    ensures Parse(pre + [x] + post) == Parse(pre + post)
  {
    ParseAfter(pre, [x], post);
    ParseAfter(pre, [], post);
    assert pre + [] + post == pre + post;
    assert ([x] + post)[0] == x && ([x] + post)[1..] == post;
    assert [] + post == post;
  }

  /** Arguments with no flags at all: the first two are the hosts, the relay
      starts exactly when there are at least two, and otherwise the exit status
      is 2 naming the host that is missing. */
  lemma PositionalsOnly(args: seq<string>)
    requires forall a :: a in args ==> !IsDash(a)
    ensures |args| == 0 ==> Parse(args) == UsageError(MissingSourceHost, false)
    ensures |args| == 1 ==> Parse(args) == UsageError(MissingDestinationHost, false)
    ensures |args| >= 2 ==> Parse(args) == Run(Config(Endpoint(args[0], DefaultSourcePort),
                                                      Endpoint(args[1], DefaultDestinationPort), false))
    ensures Parse(args).Run? <==> |args| >= 2
    ensures ExitCode(Parse(args)) == Some(2) <==> |args| < 2
  {
    FillHosts(args, Initial);
  }

  lemma {:induction false} FillHosts(rest: seq<string>, sc: Scan)
    requires sc.dst.Some? ==> sc.src.Some?
    requires forall a :: a in rest ==> !IsDash(a)
    ensures sc.src.Some? && sc.dst.Some? ==> ScanArgs(rest, sc) == Going(sc)
    ensures sc.src.Some? && sc.dst.None? ==>
      ScanArgs(rest, sc) == Going(sc.(dst := if |rest| > 0 then Some(rest[0]) else None))
    ensures sc.src.None? ==>
      ScanArgs(rest, sc) == Going(sc.(src := if |rest| > 0 then Some(rest[0]) else None,
                                      dst := if |rest| > 1 then Some(rest[1]) else None))
    decreases |rest|
  {
    if |rest| > 0 {
      assert rest[0] in rest;
      assert forall a :: a in rest[1..] ==> a in rest;
      FillHosts(rest[1..], AddHost(sc, rest[0]));
      if |rest| > 1 {
        assert rest[1..][0] == rest[1];
      }
    }
  }

  predicate ValidConfig(c: Config) {
    ValidHost(c.source.host) && ValidHost(c.destination.host)
  }

  /** A canonical argument list for a configuration. */
  function Render(c: Config): seq<string>
  {
    ["-s", Decimal(c.source.port), "-d", Decimal(c.destination.port)]
      + (if c.useSyslog then ["-l"] else [])
      + [c.source.host, c.destination.host]
  }

  /** A detached port flag followed by its value, then `rest`. */
  lemma ScanDetachedPort(c: char, v: string, rest: seq<string>, sc: Scan)
    requires IsPortFlag(c)
    requires sc.dst.Some? ==> sc.src.Some?
    ensures ScanArgs([['-', c], v] + rest, sc) == ScanArgs(rest, SetPort(sc, c, ParsePort(v)))
  {
  }

  /** Rendering a configuration and parsing it back starts the relay with that configuration. */
  lemma RenderRoundTrip(c: Config)
    requires ValidConfig(c)
    ensures Parse(Render(c)) == Run(c)
  {
    var sp := Decimal(c.source.port);
    var dp := Decimal(c.destination.port);
    var flags := if c.useSyslog then ["-l"] else [];
    var hosts := [c.source.host, c.destination.host];
    ParsePortOfDecimal(c.source.port, []);
    ParsePortOfDecimal(c.destination.port, []);
    assert Render(c) == [['-', 's'], sp] + ([['-', 'd'], dp] + (flags + hosts));
    var s1 := SetPort(Initial, 's', c.source.port);
    var s2 := SetPort(s1, 'd', c.destination.port);
    var s3 := s2.(syslog := c.useSyslog);
    ScanDetachedPort('s', sp, [['-', 'd'], dp] + (flags + hosts), Initial);
    ScanDetachedPort('d', dp, flags + hosts, s1);
    if c.useSyslog {
      assert (flags + hosts)[0] == "-l" && (flags + hosts)[1..] == hosts;
      assert ScanArgs(flags + hosts, s2) == ScanArgs(hosts, s3);
    } else {
      assert flags + hosts == hosts;
    }
    FillHosts(hosts, s3);
  }

  /** The configuration of a started relay is reproduced by its canonical rendering. */
  lemma RunIsCanonical(args: seq<string>)
    requires Parse(args).Run?
    ensures Parse(Render(Parse(args).config)) == Parse(args)
  {
    RenderRoundTrip(Parse(args).config);
  }
}

=== FILE: ports.dfy ===
/**
 Port numbers on the command line of remote-dump1090.

 The program converts a port argument with `strtoul(s, NULL, 10)`. This module
 models the part of that conversion the program relies on: the value of the
 longest run of decimal digits at the start of the string, and 0 when the
 string does not start with a digit. `Decimal` renders a number back as the
 canonical digit string, so that the two can be checked against each other.
 */
module Ports {

  /** The terminator of a C string. */
  const NUL: char := '\0'

  predicate IsDigit(c: char) {
    '0' <= c <= '9'
  }

  predicate AllDigits(s: string) {
    forall k :: 0 <= k < |s| ==> IsDigit(s[k])
  }

  function DigitValue(c: char): (v: nat)
    requires IsDigit(c)
    ensures v < 10
  {
    c as int - '0' as int
  }

  function DigitChar(v: nat): (c: char)
    requires v < 10
    ensures IsDigit(c) && DigitValue(c) == v
  {
    ('0' as int + v) as char
  }

  /** The longest prefix of `s` made only of decimal digits. */
  function LeadingDigits(s: string): (d: string)
    ensures d <= s
    ensures AllDigits(d)
    ensures |d| < |s| ==> !IsDigit(s[|d|])
  {
    if |s| == 0 || !IsDigit(s[0]) then [] else [s[0]] + LeadingDigits(s[1..])
  }

  /** The number a digit string denotes, most significant digit first. */
  function DecimalValue(d: string): nat
    requires AllDigits(d)
  {
    if |d| == 0 then 0 else DecimalValue(d[..|d| - 1]) * 10 + DigitValue(d[|d| - 1])
  }

  /** The port a `-s`/`-d` value denotes: its leading digits, or 0 when there are none. */
  function ParsePort(s: string): (p: nat)
    ensures (|s| == 0 || !IsDigit(s[0])) ==> p == 0
  {
    DecimalValue(LeadingDigits(s))
  }

  /** The canonical decimal spelling of `n`: digits only, never empty. */
  function Decimal(n: nat): (s: string)
    ensures 0 < |s|
    ensures AllDigits(s)
  {
    if n < 10 then [DigitChar(n)] else Decimal(n / 10) + [DigitChar(n % 10)]
  }

  /** Reading back a rendered number gives the number. */
  lemma {:induction false} DecimalValueOfDecimal(n: nat)
    ensures DecimalValue(Decimal(n)) == n
  {
    if n >= 10 {
      var s := Decimal(n);
      assert s[..|s| - 1] == Decimal(n / 10);
      DecimalValueOfDecimal(n / 10);
    }
  }

  /** A digit string followed by anything that does not start with a digit is all leading digits. */
  lemma {:induction false} LeadingDigitsOfDigits(d: string, rest: string)
    requires AllDigits(d)
    requires |rest| == 0 || !IsDigit(rest[0])
    ensures LeadingDigits(d + rest) == d
  {
    if |d| > 0 {
      assert (d + rest)[1..] == d[1..] + rest;
      LeadingDigitsOfDigits(d[1..], rest);
    } else {
      assert d + rest == rest;
    }
  }

  /** A value spelled by `Decimal`, with or without a non-digit tail, parses back to itself. */
  lemma ParsePortOfDecimal(n: nat, rest: string)
    requires |rest| == 0 || !IsDigit(rest[0])
    ensures ParsePort(Decimal(n) + rest) == n
    ensures ParsePort(Decimal(n)) == n
  {
    LeadingDigitsOfDigits(Decimal(n), rest);
    LeadingDigitsOfDigits(Decimal(n), []);
    assert Decimal(n) + [] == Decimal(n);
    DecimalValueOfDecimal(n);
  }
}

=== FILE: relay.dfy ===
/**
 The relay loop `main_loop` of remote-dump1090, modelled over a finite trace.

 Each turn of the loop reads up to `BufferSize` bytes from the source socket.
 A result of zero or less closes the source and reconnects it, and nothing is
 written. Otherwise exactly the bytes read are written to the destination; a
 write result of zero or less closes and reconnects the destination and the
 chunk is lost, while a positive result `k` means the first `k` bytes reached
 the destination (the rest is not retried).

 The operating system is represented by a `Turn` per iteration: the read
 result, the write result, and the handle a reconnect produced. The loop's
 decisions are what the model computes: the new handles, the bytes delivered
 to the destination, and the calls issued on the sockets.
 */
module RelayLoop {

  /** Capacity of the chunk buffer, `BUFFER_SIZE`. */
  const BufferSize: nat := 1024

  newtype byte = x: int | 0 <= x < 256

  /** A connected socket; `socket_connect` only returns descriptors >= 0. */
  type Handle = nat

  datatype Side = Source | Destination

  /** A call the loop makes on the outside world. */
  datatype Call =
    | Connect(side: Side)
    | Read(fd: Handle, capacity: nat)
    | Write(fd: Handle, data: seq<byte>)
    | Close(fd: Handle)

  datatype WriteReply =
    | Wrote(count: int)
    | WriteFailed(rv: int, reconnected: Handle)

  /** What the operating system answers during one iteration. */
  datatype Turn =
    | ReadFailed(rv: int, reconnected: Handle)
    | ReadOk(chunk: seq<byte>, reply: WriteReply)

  /** Replies `read` and `write` can give: a failed read returns 0 or less, a good
      one between 1 and the capacity asked for; a good write accepts between 1
      and the length it was given, a failed one returns 0 or less. */
  predicate ValidTurn(t: Turn) {
    match t
    case ReadFailed(rv, _) => rv <= 0
    case ReadOk(chunk, reply) =>
      && 1 <= |chunk| <= BufferSize
      && match reply
         case Wrote(k) => 0 < k <= |chunk|
         case WriteFailed(rv, _) => rv <= 0
  }

  predicate ValidTrace(trace: seq<Turn>) {
    forall i :: 0 <= i < |trace| ==> ValidTurn(trace[i])
  }

  /** The loop's state: both handles, and every byte the destination has accepted. */
  datatype Pipe = Pipe(src: Handle, dst: Handle, delivered: seq<byte>)

  datatype Stepped = Stepped(pipe: Pipe, calls: seq<Call>)

  /** Bytes of a write the destination accepted. */
  function Accepted(chunk: seq<byte>, reply: WriteReply): (a: seq<byte>)
    requires reply.Wrote? ==> 0 <= reply.count <= |chunk|
    ensures a <= chunk
    ensures |a| == (if reply.Wrote? then reply.count else 0)
  {
    if reply.Wrote? then chunk[..reply.count] else []
  }

  /** One iteration of the `while (1)` loop. */
  function Step(p: Pipe, t: Turn): (r: Stepped)
    requires ValidTurn(t)
    ensures t.ReadFailed? ==>
      && r.pipe == p.(src := t.reconnected)
      && r.calls == [Read(p.src, BufferSize), Close(p.src), Connect(Source)]
    ensures t.ReadOk? ==>
      && |r.calls| >= 2 && r.calls[..2] == [Read(p.src, BufferSize), Write(p.dst, t.chunk)]
      && r.pipe.src == p.src
      && r.pipe.delivered == p.delivered + Accepted(t.chunk, t.reply)
    ensures t.ReadOk? && t.reply.WriteFailed? ==>
      && r.pipe == p.(dst := t.reply.reconnected)
      && |r.calls| == 4 && r.calls[2..] == [Close(p.dst), Connect(Destination)]
    ensures t.ReadOk? && t.reply.Wrote? ==> r.pipe.dst == p.dst && |r.calls| == 2
  {
    match t
    case ReadFailed(_, h) =>
      Stepped(p.(src := h), [Read(p.src, BufferSize), Close(p.src), Connect(Source)])
    case ReadOk(chunk, reply) =>
      var sent := [Read(p.src, BufferSize), Write(p.dst, chunk)];
      match reply
      case Wrote(k) => Stepped(p.(delivered := p.delivered + chunk[..k]), sent)
      case WriteFailed(_, h) => Stepped(p.(dst := h), sent + [Close(p.dst), Connect(Destination)])
  }

  /** The loop run over the turns of `trace`, in order. */
  function Run(p: Pipe, trace: seq<Turn>): (r: Stepped)
    requires ValidTrace(trace)
    ensures p.delivered <= r.pipe.delivered
    decreases |trace|
  {
    if |trace| == 0 then Stepped(p, [])
    else
      var s := Step(p, trace[0]);
      var rest := Run(s.pipe, trace[1..]);
      Stepped(rest.pipe, s.calls + rest.calls)
  }

  /** `main_loop`: connect the destination, then the source, then run the loop. */
  function Launch(srcFd: Handle, dstFd: Handle, trace: seq<Turn>): (r: Stepped)
    requires ValidTrace(trace)
    ensures |r.calls| >= 2 && r.calls[..2] == [Connect(Destination), Connect(Source)]
  {
    var run := Run(Pipe(srcFd, dstFd, []), trace);
    Stepped(run.pipe, [Connect(Destination), Connect(Source)] + run.calls)
  }

  /** The loop as the program writes it, over a finite prefix of its turns. */
  method Pump(srcFd: Handle, dstFd: Handle, trace: seq<Turn>) returns (p: Pipe, calls: seq<Call>)
    requires ValidTrace(trace)
    ensures Stepped(p, calls) == Launch(srcFd, dstFd, trace)
  {
    calls := [Connect(Destination), Connect(Source)];
    p := Pipe(srcFd, dstFd, []);
    ghost var goal := Launch(srcFd, dstFd, trace);
    var i := 0;
    while i < |trace|
      invariant 0 <= i <= |trace|
      invariant goal == Stepped(Run(p, trace[i..]).pipe, calls + Run(p, trace[i..]).calls)
    {
      ghost var before := p;
      var t := trace[i];
      assert trace[i..][0] == t && trace[i..][1..] == trace[i + 1..];
      var issued: seq<Call>;
      if t.ReadFailed? {
        issued := [Read(p.src, BufferSize), Close(p.src), Connect(Source)];
        p := p.(src := t.reconnected);
      } else if t.reply.WriteFailed? {
        issued := [Read(p.src, BufferSize), Write(p.dst, t.chunk), Close(p.dst), Connect(Destination)];
        p := p.(dst := t.reply.reconnected);
      } else {
        issued := [Read(p.src, BufferSize), Write(p.dst, t.chunk)];
        p := p.(delivered := p.delivered + t.chunk[..t.reply.count]);
      }
      StepIs(before, t, p, issued);
      Advance(before, trace[i..], calls, p, issued);
      calls := calls + issued;
      i := i + 1;
    }
  }

  lemma StepIs(p: Pipe, t: Turn, next: Pipe, issued: seq<Call>)
    requires ValidTurn(t)
    requires t.ReadFailed? ==>
      next == p.(src := t.reconnected) && issued == [Read(p.src, BufferSize), Close(p.src), Connect(Source)]
    requires t.ReadOk? && t.reply.WriteFailed? ==>
      && next == p.(dst := t.reply.reconnected)
      && issued == [Read(p.src, BufferSize), Write(p.dst, t.chunk), Close(p.dst), Connect(Destination)]
    requires t.ReadOk? && t.reply.Wrote? ==>
      && next == p.(delivered := p.delivered + t.chunk[..t.reply.count])
      && issued == [Read(p.src, BufferSize), Write(p.dst, t.chunk)]
    ensures Step(p, t) == Stepped(next, issued)
  {
  }

  /** Moving one turn from the trace still to run into the log already made. */
  lemma Advance(p: Pipe, rest: seq<Turn>, logged: seq<Call>, next: Pipe, issued: seq<Call>)
    requires ValidTrace(rest) && |rest| > 0
    requires Step(p, rest[0]) == Stepped(next, issued)
    ensures ValidTrace(rest[1..])
    ensures Run(p, rest).pipe == Run(next, rest[1..]).pipe
    ensures logged + Run(p, rest).calls == (logged + issued) + Run(next, rest[1..]).calls
  {
  }

  /** One turn of `Run`, unfolded. */
  lemma RunUnfold(p: Pipe, trace: seq<Turn>)
    requires ValidTrace(trace) && |trace| > 0
    ensures ValidTrace(trace[1..])
    ensures Run(p, trace).pipe == Run(Step(p, trace[0]).pipe, trace[1..]).pipe
    ensures Run(p, trace).calls == Step(p, trace[0]).calls + Run(Step(p, trace[0]).pipe, trace[1..]).calls
  {
  }

  /** The chunks the loop read successfully, in read order. */
  function ReadChunks(trace: seq<Turn>): seq<seq<byte>>
  {
    if |trace| == 0 then []
    else if trace[0].ReadOk? then [trace[0].chunk] + ReadChunks(trace[1..])
    else ReadChunks(trace[1..])
  }

  function Flatten(chunks: seq<seq<byte>>): seq<byte>
  {
    if |chunks| == 0 then [] else chunks[0] + Flatten(chunks[1..])
  }

  /** The data of the `Write` calls in a call log, in order. */
  function WrittenData(calls: seq<Call>): seq<seq<byte>>
  {
    if |calls| == 0 then []
    else if calls[0].Write? then [calls[0].data] + WrittenData(calls[1..])
    else WrittenData(calls[1..])
  }

  /** `d` is a prefix of the first chunk, followed by a prefix of the second, and so on. */
  ghost predicate PrefixesOf(d: seq<byte>, chunks: seq<seq<byte>>)
    decreases |chunks|
  {
    if |chunks| == 0 then d == []
    else exists k :: 0 <= k <= |chunks[0]| && k <= |d| && d[..k] == chunks[0][..k] && PrefixesOf(d[k..], chunks[1..])
  }

  lemma WrittenDataAppend(a: seq<Call>, b: seq<Call>)
    ensures WrittenData(a + b) == WrittenData(a) + WrittenData(b)
  {
    if |a| > 0 {
      assert (a + b)[1..] == a[1..] + b;
      WrittenDataAppend(a[1..], b);
    } else {
      assert a + b == b;
    }
  }

  lemma ValidTraceAppend(a: seq<Turn>, b: seq<Turn>)
    requires ValidTrace(a) && ValidTrace(b)
    ensures ValidTrace(a + b)
  {
  }

  /** Running two traces one after the other is running their concatenation. */
  lemma {:induction false} RunAppend(p: Pipe, a: seq<Turn>, b: seq<Turn>)
    requires ValidTrace(a) && ValidTrace(b)
    ensures ValidTrace(a + b)
    ensures Run(p, a + b).pipe == Run(Run(p, a).pipe, b).pipe
    ensures Run(p, a + b).calls == Run(p, a).calls + Run(Run(p, a).pipe, b).calls
    decreases |a|
  {
    ValidTraceAppend(a, b);
    if |a| == 0 {
      assert a + b == b;
    } else {
      var s := Step(p, a[0]);
      assert (a + b)[0] == a[0];
      assert (a + b)[1..] == a[1..] + b;
      RunUnfold(p, a + b);
      RunUnfold(p, a);
      RunAppend(s.pipe, a[1..], b);
      var mid := Run(s.pipe, a[1..]);
      var last := Run(mid.pipe, b);
      assert s.calls + mid.calls + last.calls == s.calls + (mid.calls + last.calls);
    }
  }

  /** What reaches the destination by an earlier point of the trace is a prefix of
      what has reached it by any later point: the relay never reorders. */
  lemma DeliveredInOrder(p: Pipe, a: seq<Turn>, b: seq<Turn>)
    requires ValidTrace(a) && ValidTrace(b)
    ensures ValidTrace(a + b)
    ensures Run(p, a).pipe.delivered <= Run(p, a + b).pipe.delivered
  {
    RunAppend(p, a, b);
  }

  /** Each chunk read is handed to `write` once, whole, in read order. */
  lemma {:induction false} WritesAreTheChunksRead(p: Pipe, trace: seq<Turn>)
    requires ValidTrace(trace)
    ensures WrittenData(Run(p, trace).calls) == ReadChunks(trace)
    decreases |trace|
  {
    if |trace| > 0 {
      var s := Step(p, trace[0]);
      WritesAreTheChunksRead(s.pipe, trace[1..]);
      WrittenDataAppend(s.calls, Run(s.pipe, trace[1..]).calls);
      WrittenDataOfStep(p, trace[0]);
    }
  }

  lemma WrittenDataCons(x: Call, rest: seq<Call>)
    ensures WrittenData([x] + rest) == (if x.Write? then [x.data] else []) + WrittenData(rest)
  {
  }

  /** A turn hands `write` its chunk when the read succeeded, and nothing otherwise. */
  lemma WrittenDataOfStep(p: Pipe, t: Turn)
    requires ValidTurn(t)
    ensures WrittenData(Step(p, t).calls) == if t.ReadOk? then [t.chunk] else []
  {
    var read := Read(p.src, BufferSize);
    if t.ReadFailed? {
      WrittenDataCons(Connect(Source), []);
      WrittenDataCons(Close(p.src), [Connect(Source)]);
      WrittenDataCons(read, [Close(p.src), Connect(Source)]);
      assert Step(p, t).calls == [read] + [Close(p.src), Connect(Source)];
    } else {
      var write := Write(p.dst, t.chunk);
      var tail := if t.reply.WriteFailed? then [Close(p.dst), Connect(Destination)] else [];
      WrittenDataCons(Connect(Destination), []);
      WrittenDataCons(Close(p.dst), [Connect(Destination)]);
      assert WrittenData(tail) == [];
      WrittenDataCons(write, tail);
      WrittenDataCons(read, [write] + tail);
      assert Step(p, t).calls == [read] + ([write] + tail);
    }
  }

  /** The bytes added to the destination are a prefix of each chunk read, in read
      order: nothing is invented, reordered or duplicated. */
  lemma {:induction false} DeliveredArePrefixesOfChunks(p: Pipe, trace: seq<Turn>)
    requires ValidTrace(trace)
    ensures |p.delivered| <= |Run(p, trace).pipe.delivered|
    ensures PrefixesOf(Run(p, trace).pipe.delivered[|p.delivered|..], ReadChunks(trace))
    decreases |trace|
  {
    var final := Run(p, trace).pipe.delivered;
    if |trace| == 0 {
      assert final[|p.delivered|..] == [];
    } else {
      var t := trace[0];
      var s := Step(p, t).pipe;
      RunUnfold(p, trace);
      DeliveredArePrefixesOfChunks(s, trace[1..]);
      if t.ReadOk? {
        var acc := Accepted(t.chunk, t.reply);
        var g := final[|p.delivered|..];
        assert g[..|acc|] == acc && g[|acc|..] == final[|s.delivered|..];
        PrefixesOfCons(g, t.chunk, |acc|, ReadChunks(trace[1..]));
      }
    }
  }

  /** A prefix of one chunk followed by prefixes of the next chunks. */
  lemma PrefixesOfCons(g: seq<byte>, chunk: seq<byte>, k: nat, rest: seq<seq<byte>>)
    requires k <= |chunk| && k <= |g| && g[..k] == chunk[..k]
    requires PrefixesOf(g[k..], rest)
    ensures PrefixesOf(g, [chunk] + rest)
  {
  }

  /** With every read and every write succeeding in full, the destination receives
      exactly the bytes read, in order, and neither side is reconnected. */
  lemma {:induction false} HealthyRelayIsExact(p: Pipe, trace: seq<Turn>)
    requires ValidTrace(trace)
    requires forall i :: 0 <= i < |trace| ==> trace[i].ReadOk? && trace[i].reply == Wrote(|trace[i].chunk|)
    ensures Run(p, trace).pipe == p.(delivered := p.delivered + Flatten(ReadChunks(trace)))
    decreases |trace|
  {
    if |trace| == 0 {
      assert p.delivered + [] == p.delivered;
    } else {
      var t := trace[0];
      assert t.chunk[..|t.chunk|] == t.chunk;
      HealthyRelayIsExact(Step(p, t).pipe, trace[1..]);
      assert p.delivered + t.chunk + Flatten(ReadChunks(trace[1..]))
          == p.delivered + (t.chunk + Flatten(ReadChunks(trace[1..])));
    }
  }

  /** While only reads fail, only the source is reconnected: the destination
      handle, the delivered bytes and the absence of writes are untouched. */
  lemma {:induction false} SourceOutage(p: Pipe, trace: seq<Turn>)
    requires ValidTrace(trace)
    requires forall i :: 0 <= i < |trace| ==> trace[i].ReadFailed?
    ensures Run(p, trace).pipe.dst == p.dst
    ensures Run(p, trace).pipe.delivered == p.delivered
    ensures |trace| > 0 ==> Run(p, trace).pipe.src == trace[|trace| - 1].reconnected
    ensures WrittenData(Run(p, trace).calls) == []
    decreases |trace|
  {
    if |trace| > 0 {
      SourceOutage(Step(p, trace[0]).pipe, trace[1..]);
      WritesAreTheChunksRead(p, trace);
      NoChunksWhileReadsFail(trace);
    }
  }

  lemma {:induction false} NoChunksWhileReadsFail(trace: seq<Turn>)
    requires forall i :: 0 <= i < |trace| ==> trace[i].ReadFailed?
    ensures ReadChunks(trace) == []
    decreases |trace|
  {
    if |trace| > 0 {
      NoChunksWhileReadsFail(trace[1..]);
    }
  }

  /** While only writes fail, the source is never reconnected and the chunks read
      meanwhile are dropped: after the destination comes back, the next full
      write delivers only its own chunk. */
  lemma {:induction false} DestinationOutageDrops(p: Pipe, outage: seq<Turn>, chunk: seq<byte>)
    requires ValidTrace(outage)
    requires forall i :: 0 <= i < |outage| ==> outage[i].ReadOk? && outage[i].reply.WriteFailed?
    requires 1 <= |chunk| <= BufferSize
    ensures ValidTrace(outage + [ReadOk(chunk, Wrote(|chunk|))])
    ensures Run(p, outage).pipe.src == p.src
    ensures Run(p, outage).pipe.delivered == p.delivered
    ensures Run(p, outage + [ReadOk(chunk, Wrote(|chunk|))]).pipe.delivered == p.delivered + chunk
    decreases |outage|
  {
    var last := [ReadOk(chunk, Wrote(|chunk|))];
    assert ValidTrace(last);
    RunAppend(p, outage, last);
    DropsWhileWritesFail(p, outage);
    assert chunk[..|chunk|] == chunk;
  }

  lemma {:induction false} DropsWhileWritesFail(p: Pipe, outage: seq<Turn>)
    requires ValidTrace(outage)
    requires forall i :: 0 <= i < |outage| ==> outage[i].ReadOk? && outage[i].reply.WriteFailed?
    ensures Run(p, outage).pipe.src == p.src
    ensures Run(p, outage).pipe.delivered == p.delivered
    decreases |outage|
  {
    if |outage| > 0 {
      DropsWhileWritesFail(Step(p, outage[0]).pipe, outage[1..]);
    }
  }
}
